=== FILE: README.md ===
# hello-lamp interaction layer in Dafny

A model of the interaction layer of the hello-lamp product configurator
(`src/main.js`). The page shows a lamp, a chair, a room and a colour panel, and
redraws only when an event asks for it. The model covers:

- **Drag rotation** (module `Drag`). The pointer-down handler routes the nearest
  raycast hit by the name of the hit mesh's parent:
  - `lamp_case` starts a drag and switches off camera orbiting;
  - `control_panel` opens the colour picker;
  - anything else, or no hit, does nothing.

  While pressed, pointer-move turns the lamp head by five radians per unit of
  normalised pointer travel, clamped independently into [-π, π] on each axis.
  Vertical travel drives `rotation.z` and horizontal travel drives `rotation.x`.
  Pointer-up ends the drag, zeroes the stored pointer, re-enables orbiting and
  sets the full-screen flag.
- **Coordinate maps** (module `Pointer`). Pointer normalisation takes client
  pixels to normalised device coordinates. The overlay mapping takes normalised
  device coordinates back to canvas pixels, with the fixed (-30, -40) bias of the
  colour-picker overlay. `Angles` holds π, `Math.min`/`Math.max` and the clamp.
- **One render pass** (module `Render`). This is the
  `resizeRendererToDisplaySize` check with its drawing-buffer sync, the camera
  aspect update that follows a resize, and the overlay placement that tracks the
  projected colour panel.
- **Render on demand** (module `App`). Events are dispatched to their handlers,
  and a frame is drawn only when a handler asks for one. Lemmas over arbitrary
  event sequences cover the handler invariant, the angle bounds, the sticky
  full-screen flag, and at most one frame per event.
- **`dumpObject`** (module `Dump`). This is the console pretty-printer of a
  scene subtree over a recursive `Node` datatype. It is related to an
  independent preorder enumeration of the tree.

The engine is an input, not part of the model. The raycast becomes an
`Option<string>`: the nearest hit's parent name, or `None`. The projection of
the colour panel becomes an `Option<Ndc>`, which is `None` while the panel is
not loaded. Arithmetic is over `real`. π is the decimal value of `Math.PI`. The
general lemmas use only the fact that it is positive; the concrete scenario
`Drag.DragScenario` also uses that it is at least 0.5.

Two points of the drag behaviour are easy to misread:

- Pointer-down neither resets nor records the pointer position. The first move of
  a drag therefore measures the pointer travel from the stored deltas. Those are
  always the origin when idle (`Drag.Valid`), so the first move measures from
  the centre of the viewport (`Drag.FirstMoveMeasuresFromOrigin`), not from
  where the press happened.
- A pressed move turns the lamp by `5 * (previous - current)`. A pointer moving
  right by 0.1 in normalised units therefore turns `rotation.x` by -0.5 rad
  (`Drag.DragScenario`).

## Model

| member | source | states |
|---|---|---|
| Angles.Clamp | src/main.js:240-241 | the clamped angle always lies in [-π, π]; it equals the input when the input is in range; it is π above and -π below the range |
| Angles.ClampIsNearest | src/main.js:240-241 | the clamped angle is the point of [-π, π] nearest to the unclamped angle |
| Angles.ClampMonotone | src/main.js:240-241 | clamping preserves the order of angles |
| Pointer.Normalize | src/main.js:196-198 | a pointer inside the window normalises into [-1, 1]²; the left and right edges map to x = -1 and x = 1; the top and bottom edges map to y = 1 and y = -1 |
| Pointer.NormalizeMonotone | src/main.js:234-235 | normalised x is non-decreasing in clientX; normalised y is non-increasing in clientY |
| Pointer.ToPixel | src/main.js:271-272 | a point of [-1, 1]² maps into [0, width] × [0, height]; x = -1 maps to the left edge and y = 1 to the top edge |
| Pointer.ToPixelMonotone | src/main.js:271-272 | overlay x is non-decreasing in ndc.x; overlay y is non-increasing in ndc.y |
| Pointer.ToPixelUndoesNormalize | src/main.js:271-272 | over the same viewport, the overlay mapping of a normalised pointer gives back the client point |
| Pointer.NormalizeUndoesToPixel | src/main.js:196-198 | over the same viewport, normalising the overlay pixel of a normalised point gives back that point |
| Pointer.OverlayOffset | src/main.js:271-274 | the overlay translate is the mapped pixel shifted by (-30, -40); for a point of [-1, 1]² it lies in [-30, width-30] × [-40, height-40] |
| Drag.Initial | src/main.js:11-13 | the initial state is idle with orbiting on, the stored pointer at the origin, and full-screen off |
| Drag.OnPointerDown | src/main.js:195-216 | never draws; opens the picker exactly when the hit's parent is `control_panel`; a hit on `lamp_case` starts the drag and disables orbiting, changing nothing else; any other hit, or no hit, leaves the state unchanged |
| Drag.DragAxis | src/main.js:237-241 | the new angle lies in [-π, π]; it is the old angle plus 5 × the pointer travel when that sum is in range; it is π when the sum is above π and -π when it is below -π |
| Drag.OnPointerMove | src/main.js:232-247 | when not pressed: nothing changes and nothing is drawn; when pressed: a frame is drawn, the normalised pointer becomes the stored pointer, each axis is clamped into [-π, π] independently (z from vertical travel, x from horizontal travel), and the drag flags and full-screen flag are unchanged |
| Drag.OnPointerUp | src/main.js:218-230 | always draws and sets full-screen; ending a drag clears `pressed`, re-enables orbiting and zeroes both deltas; without a drag only full-screen changes; the lamp never moves |
| Drag.HandlersKeepValid | src/main.js:195-247 | every handler keeps the invariant: orbiting is on exactly when not pressed, and the stored pointer is the origin whenever not pressed |
| Drag.FirstMoveMeasuresFromOrigin | src/main.js:232-244 | from a valid idle state, the first move after pressing the lamp turns each axis by 5 × (0 - current normalised pointer), clamped |
| Drag.DragScenario | src/main.js:195-247 | press the lamp, move to the centre, move right by 0.1, release: the lamp turns by -0.5 rad about x; each move and the release draw; afterwards orbiting is on and the deltas are 0 |
| Render.ResizeToDisplaySize | src/main.js:290-299 | reports a resize exactly when the drawing buffer differs from the displayed size; afterwards the two agree; the displayed size is untouched; nothing changes when no resize is needed |
| Render.ResizeIsIdempotent | src/main.js:290-299 | a second check right after the first finds nothing to resize |
| Render.RenderFrame | src/main.js:257-279 | after a frame the canvas is synced and one more frame has been drawn; the camera aspect follows the displayed size exactly when a resize happened; with a loaded anchor, the overlay plus its bias is the anchor's overlay pixel, and otherwise the overlay is left where it was |
| Render.OverlayStaysOnCanvas | src/main.js:266-275 | an on-screen anchor puts the overlay's reference point on the canvas |
| Render.OverlayTracksAnchor | src/main.js:266-275 | the overlay is recomputed every frame: after frames with anchors p1 then p2 it shows p1, then p2 |
| App.Start | src/main.js:11-13 | the page starts idle, with orbiting on, full-screen off and no picker opened, after exactly one frame drawn by the module itself (src/main.js:282) with no overlay placed, since the colour panel has not loaded; that frame is exactly one render pass (resize check on the real displayed size, camera aspect update on a resize) |
| App.Dispatch | src/main.js:249-252 | the pointer listeners (src/main.js:249-252) and the orbit-change (64-66), colour-input (183-189), window-resize (284-286), slider (306-321) and load-complete (363-369) listeners: pointer events update the state exactly as their handlers do, and other events leave it alone; exactly one frame is drawn for pointer-up, resize, orbit change, slider change, colour input and load completion, one for a pointer-move exactly when a drag is in progress, none for a pointer-down; a drawn frame is exactly one render pass (resize check, camera aspect, overlay placed at the event's anchor) over the view, after a resize over the view with the new displayed size, and leaves the canvas synced; the picker count rises by one exactly when the press hits the colour panel; a resize installs the new window and displayed canvas size |
| App.RunKeepsValid | src/main.js:195-247 | the handler invariant holds after any sequence of events that starts from a valid state |
| App.RunKeepsLampInRange | src/main.js:240-241 | once both lamp axes are in [-π, π], they stay there through any sequence of events |
| App.RunKeepsFullScreen | src/main.js:218-231 | once full-screen is set, no event sequence clears it |
| App.RunDrawsAtMostOneFramePerEvent | src/main.js:276-282 | render on demand: a run of n events draws between 0 and n frames |
| App.LampTurnsOnlyAfterPress | src/main.js:206-210 | from an idle state, a run without a press on the lamp never presses, never turns the lamp and never changes the stored pointer |
| App.IdleHarmlessEventsChangeNothing | src/main.js:206-215 | while idle, moves and presses that hit nothing interactive leave the whole page unchanged: no state change, no frame, no picker |
| Dump.Label | src/main.js:344 | a node with an empty name prints `*no-name*`; otherwise its caption starts with its name; every caption ends with ` [type][material]` |
| Dump.MaterialName | src/main.js:344 | a node with a material prints the material's name; one without prints `*no-material*` |
| Dump.DumpLines | src/main.js:342-352 | a subtree prints exactly one line per node; the first line is the node's own, with a connector only when the prefix is non-empty |
| Dump.DumpChildren | src/main.js:346-350 | the children print exactly one line per node of the forest |
| Dump.DumpObject | src/main.js:342-352 | the dump of a tree has one line per node, and its first line is the root's bare caption |
| Dump.DumpFollowsPreorder | src/main.js:342-352 | the i-th printed caption is the caption of the i-th node in preorder |
| Dump.DumpChildrenFollowPreorder | src/main.js:346-350 | the same for a forest of children |
| Dump.IndentsExtendPrefix | src/main.js:343-345 | every line of a subtree is indented by at least its prefix; every line below the first is indented by the prefix plus the two-character step and carries a connector |
| Dump.ChildIndentsExtendPrefix | src/main.js:345-349 | every line of a forest printed under a non-empty prefix is indented by that prefix and carries a connector |
| Dump.ChildLineAt | src/main.js:346-349 | child k's line comes after the lines of the earlier children's subtrees; its connector is the elbow exactly when k is the last child |
| Dump.ChildHeader | src/main.js:343-349 | child k's line has the parent's prefix plus two blanks when the parent is a last child and plus a rule otherwise; its connector is the elbow exactly when k is the last child, and the tee otherwise |
| Dump.DumpObjectShape | src/main.js:342-352 | the dump of a tree is one line per node in preorder; the root line is bare; every other line is an indent of at least two characters, a connector and the node's caption |

## Left out

- Scene, lights, materials, camera construction and orbit-control configuration (src/main.js:21-111): engine configuration with no logic of its own.
- The raycast and `tempV.project`: library geometry. The nearest hit's parent name and the colour panel's projected point are inputs.
- Asset loading and the loading-manager callbacks (src/main.js:113-179, 355-380): asynchronous I/O. Only the frame that completion requests is modelled (`App.LoadComplete`). The model does not track whether `lamp_case` has loaded. A hit whose parent is `lamp_case` can only come from a loaded lamp, and the loader assigns `lamp_case` in the same callback that adds the lamp to the scene.
- The colour-picker input handler, `showPicker`, `openFullscreen` and the dat.gui slider wiring (src/main.js:182-189, 303-338): DOM glue. Their frame requests are modelled as events (`ColorInput`, `SliderChange`), and opening the picker is counted (`pickerOpened`). The colours and slider values are not modelled.
- App.Dispatch: always draws a frame on `ColorInput`. In the source the colour handler first writes `bulb.material` (src/main.js:186) and only then calls `render()` (src/main.js:188). While the lamp asset is not loaded, or after it failed to load, `bulb` is undefined, so the handler throws and draws nothing. The model does not track whether `bulb` is loaded, so it does not model this exception path.
- `renderer.render`, `renderer.setSize` and `camera.updateProjectionMatrix`: engine effects.
  - A draw is counted as a frame.
  - `setSize(w, h, false)` is modelled as setting the drawing buffer to the displayed size, which is its effect at the default pixel ratio of 1.
  - The camera aspect is kept as the (width, height) pair it is the quotient of, so a zero-height canvas needs no special case.
- Pointer.Normalize: the window size is required to be positive. With a zero-size window the source divides by zero and gets infinities or NaN, which `real` cannot express.
- IEEE-754 rounding, NaN and infinities: everything is over exact `real`. `Angles.Min`/`Angles.Max` are `Math.min`/`Math.max` on ordinary numbers.
- The `time` argument of `render` is scaled and never used. It is omitted.
- The mouse position computed in the pointer-down handler only feeds the raycast, so it is not modelled.
- Per-scene axis mappings of other variants of this page are not modelled. This file maps vertical travel to `rotation.z` and horizontal travel to `rotation.x`.
- `dumpObject` is given a material name as `Option<string>`. A material array, whose `.name` is undefined in the source, is not modelled. The output is returned as a fresh sequence rather than pushed onto a caller's array.

=== FILE: angles.dfy ===
/** Angle bounds of the lamp head: every drag update clamps each rotation
    axis into the closed interval [-π, π]. */
module Angles {

  /** The value of Math.PI. The general lemmas only use that it is positive;
      the concrete drag scenario in module Drag also uses that it is at least 0.5. */
  const Pi: real := 3.141592653589793

  /** Math.min and Math.max on ordinary (non-NaN) numbers */
  function Min(a: real, b: real): real { if a <= b then a else b }
  function Max(a: real, b: real): real { if a >= b then a else b }

  /** The rotation bounds of one axis */
  predicate InRange(a: real) {
    -Pi <= a <= Pi
  }

  /** The clamp the drag handler writes out as Math.max(Math.min(a, Math.PI), -Math.PI) */
  function Clamp(a: real): (r: real)
    ensures InRange(r)
    ensures InRange(a) ==> r == a
    ensures a > Pi ==> r == Pi
    ensures a < -Pi ==> r == -Pi
  {
    Max(Min(a, Pi), -Pi)
  }

  function Abs(a: real): real { if a < 0.0 then -a else a }

  /** The clamped angle is the point of [-π, π] nearest to the unclamped one. */
  lemma ClampIsNearest(a: real, b: real)
    requires InRange(b)
    ensures Abs(a - Clamp(a)) <= Abs(a - b)
  {
  }

  /** Clamping preserves the order of angles, so a larger drag never yields a smaller angle. */
  lemma ClampMonotone(a: real, b: real)
    requires a <= b
    ensures Clamp(a) <= Clamp(b)
  {
  }
}

=== FILE: app.dfy ===
/** The event-driven page: each DOM, control or loader event runs its handler,
    and a frame is drawn only when the handler asks for one (render on demand). */
module App {
  import opened Wrappers
  import opened Angles
  import opened Pointer
  import opened Drag
  import opened Render

  /** The events the page listens to.  `Resize` carries the new window size and
      the canvas's new displayed size; the last four only ask for a frame. */
  datatype Event =
    | PointerDown(hit: Option<string>)
    | PointerMove(at: ClientPoint)
    | PointerUp
    | Resize(win: Window, clientWidth: nat, clientHeight: nat)
    | OrbitChange
    | SliderChange
    | ColorInput
    | LoadComplete

  /** An event together with the projected position of the colour panel at that moment
      (None while the panel is not loaded) */
  datatype Input = Input(event: Event, anchor: Option<Ndc>)

  /** The whole interaction context: handler state, last frame, window, and how often the picker was opened */
  datatype Page = Page(ui: Interaction, view: View, win: Window, pickerOpened: nat)

  /** Whether an event draws a frame in state `s`: a pointer-down never does, a pointer-move
      only during a drag, every other event always */
  predicate Draws(s: Interaction, e: Event) {
    match e
    case PointerDown(_) => false
    case PointerMove(_) => s.pressed
    case _ => true
  }

  /** Feeds one event to its handler and draws a frame if the handler asked for one */
  function Dispatch(p: Page, input: Input): (p': Page)
    ensures var e := input.event;
            p'.view.frames == (if Draws(p.ui, e) then p.view.frames + 1 else p.view.frames)
    ensures Draws(p.ui, input.event) ==> Synced(p'.view.canvas)
    ensures Draws(p.ui, input.event) ==>
              var e := input.event;
              var before := if e.Resize? then p.view.(canvas := p.view.canvas.(clientWidth := e.clientWidth, clientHeight := e.clientHeight))
                            else p.view;
              p'.view == RenderFrame(before, input.anchor)
    ensures !Draws(p.ui, input.event) ==> p'.view == p.view
    ensures input.event.PointerDown? ==>
              && p'.ui == OnPointerDown(p.ui, input.event.hit).next
              && p'.pickerOpened == (if input.event.hit == Some(ControlPanel) then p.pickerOpened + 1 else p.pickerOpened)
    ensures !input.event.PointerDown? ==> p'.pickerOpened == p.pickerOpened
    ensures input.event.PointerMove? ==> p'.ui == OnPointerMove(p.ui, input.event.at, p.win).next
    ensures input.event.PointerUp? ==> p'.ui == OnPointerUp(p.ui).next
    ensures !(input.event.PointerDown? || input.event.PointerMove? || input.event.PointerUp?) ==> p'.ui == p.ui
    ensures input.event.Resize? ==>
              && p'.win == input.event.win
              && p'.view.canvas.clientWidth == input.event.clientWidth
              && p'.view.canvas.clientHeight == input.event.clientHeight
    ensures !input.event.Resize? ==> p'.win == p.win
  {
    match input.event
    case PointerDown(hit) =>
      var r := OnPointerDown(p.ui, hit);
      p.(ui := r.next, pickerOpened := if r.showPicker then p.pickerOpened + 1 else p.pickerOpened)
    case PointerMove(at) =>
      var r := OnPointerMove(p.ui, at, p.win);
      p.(ui := r.next, view := if r.render then RenderFrame(p.view, input.anchor) else p.view)
    case PointerUp =>
      var r := OnPointerUp(p.ui);
      p.(ui := r.next, view := RenderFrame(p.view, input.anchor))
    case Resize(win, cw, ch) =>
      var c := p.view.canvas.(clientWidth := cw, clientHeight := ch);
      p.(win := win, view := RenderFrame(p.view.(canvas := c), input.anchor))
    case OrbitChange => p.(view := RenderFrame(p.view, input.anchor))
    case SliderChange => p.(view := RenderFrame(p.view, input.anchor))
    case ColorInput => p.(view := RenderFrame(p.view, input.anchor))
    case LoadComplete => p.(view := RenderFrame(p.view, input.anchor))
  }

  /** The page right after the module has run: the handlers' initial state and the one frame the module
      draws itself, before any asset (so before the colour panel) has loaded */
  function Start(lamp: Rotation, v: View, win: Window): (p: Page)
    ensures Valid(p.ui) && !p.ui.pressed && p.ui.orbitEnabled && !p.ui.fullScreen && p.ui.lamp == lamp
    ensures p.view.frames == v.frames + 1 && Synced(p.view.canvas)
    ensures p.view.overlay == v.overlay && p.win == win && p.pickerOpened == 0
    ensures p.view == RenderFrame(v, None)
  {
    Page(Initial(lamp), RenderFrame(v, None), win, 0)
  }

  /** Feeds a sequence of events in order */
  function Run(p: Page, inputs: seq<Input>): Page
    decreases |inputs|
  {
    if |inputs| == 0 then p else Run(Dispatch(p, inputs[0]), inputs[1..])
  }

  /** The handler invariant holds from the initial state through every run. */
  lemma {:induction false} RunKeepsValid(p: Page, inputs: seq<Input>)
    requires Valid(p.ui)
    ensures Valid(Run(p, inputs).ui)
    decreases |inputs|
  {
    if |inputs| > 0 {
      var e := inputs[0].event;
      HandlersKeepValid(p.ui, if e.PointerDown? then e.hit else None,
                        if e.PointerMove? then e.at else ClientPoint(0.0, 0.0), p.win);
      RunKeepsValid(Dispatch(p, inputs[0]), inputs[1..]);
    }
  }

  /** Once both lamp axes are within [-π, π] they stay there, whatever the drags. */
  lemma {:induction false} RunKeepsLampInRange(p: Page, inputs: seq<Input>)
    requires InRange(p.ui.lamp.x) && InRange(p.ui.lamp.z)
    ensures var q := Run(p, inputs); InRange(q.ui.lamp.x) && InRange(q.ui.lamp.z)
    decreases |inputs|
  {
    if |inputs| > 0 {
      RunKeepsLampInRange(Dispatch(p, inputs[0]), inputs[1..]);
    }
  }

  /** Full-screen mode, once entered, is never left. */
  lemma {:induction false} RunKeepsFullScreen(p: Page, inputs: seq<Input>)
    requires p.ui.fullScreen
    ensures Run(p, inputs).ui.fullScreen
    decreases |inputs|
  {
    if |inputs| > 0 {
      RunKeepsFullScreen(Dispatch(p, inputs[0]), inputs[1..]);
    }
  }

  /** No busy loop: a run draws at most one frame per event. */
  lemma {:induction false} RunDrawsAtMostOneFramePerEvent(p: Page, inputs: seq<Input>)
    ensures p.view.frames <= Run(p, inputs).view.frames <= p.view.frames + |inputs|
    decreases |inputs|
  {
    if |inputs| > 0 {
      RunDrawsAtMostOneFramePerEvent(Dispatch(p, inputs[0]), inputs[1..]);
    }
  }

  predicate PressesLamp(input: Input) {
    input.event == PointerDown(Some(LampCase))
  }

  /** The lamp head only turns in a drag that began with a press on it: without such a press,
      starting idle, no run changes the lamp's rotation or the stored pointer. */
  lemma {:induction false} LampTurnsOnlyAfterPress(p: Page, inputs: seq<Input>)
    requires !p.ui.pressed
    requires forall i :: 0 <= i < |inputs| ==> !PressesLamp(inputs[i])
    ensures var q := Run(p, inputs);
            !q.ui.pressed && q.ui.lamp == p.ui.lamp
            && q.ui.deltaX == p.ui.deltaX && q.ui.deltaY == p.ui.deltaY
    decreases |inputs|
  {
    if |inputs| > 0 {
      LampTurnsOnlyAfterPress(Dispatch(p, inputs[0]), inputs[1..]);
    }
  }

  predicate Harmless(input: Input) {
    || input.event.PointerMove?
    || (input.event.PointerDown? && input.event.hit != Some(LampCase) && input.event.hit != Some(ControlPanel))
  }

  /** While idle, pointer moves and presses that hit nothing (or nothing interactive) change nothing at all:
      no state, no frame, no picker. */
  lemma {:induction false} IdleHarmlessEventsChangeNothing(p: Page, inputs: seq<Input>)
    requires !p.ui.pressed
    requires forall i :: 0 <= i < |inputs| ==> Harmless(inputs[i])
    ensures Run(p, inputs) == p
    decreases |inputs|
  {
    if |inputs| > 0 {
      assert Dispatch(p, inputs[0]) == p;
      IdleHarmlessEventsChangeNothing(p, inputs[1..]);
    }
  }
}

=== FILE: drag.dfy ===
/** The pointer handlers of the lamp configurator: pointer-down routes the
    nearest raycast hit by its parent's name, pointer-move drag-rotates the lamp
    head while pressed, pointer-up ends the drag.  Each handler is a pure
    transition of an immutable interaction state plus the effects it requests. */
module Drag {
  import opened Wrappers
  import opened Angles
  import opened Pointer

  /** Parent name of the meshes that make up the rotatable lamp head */
  const LampCase: string := "lamp_case"
  /** Parent name of the meshes of the colour panel */
  const ControlPanel: string := "control_panel"
  /** Radians of rotation per unit of normalised pointer travel */
  const Sensitivity: real := 5.0

  /** lamp_case.rotation.x and lamp_case.rotation.z */
  datatype Rotation = Rotation(x: real, z: real)

  /** The module-level interaction variables: `pressed`, `controls.enabled`,
      `mouseX_delta`, `mouseY_delta`, `fullScreen` and the lamp head's rotation */
  datatype Interaction = Interaction(
    pressed: bool,
    orbitEnabled: bool,
    deltaX: real,
    deltaY: real,
    fullScreen: bool,
    lamp: Rotation)

  /** A handler's outcome: the next state, whether it asks for a frame, whether it opens the colour picker */
  datatype Reaction = Reaction(next: Interaction, render: bool, showPicker: bool)

  /** The state the module starts in; the lamp's rotation is whatever its asset holds */
  function Initial(lamp: Rotation): (s: Interaction)
    ensures Valid(s) && !s.pressed && !s.fullScreen && s.lamp == lamp
  {
    Interaction(false, true, 0.0, 0.0, false, lamp)
  }

  /** The invariant every handler keeps: orbiting is enabled exactly when no drag
      is in progress, and the stored pointer is the origin whenever no drag is in progress */
  predicate Valid(s: Interaction) {
    && s.orbitEnabled == !s.pressed
    && (!s.pressed ==> s.deltaX == 0.0 && s.deltaY == 0.0)
  }

  /** Pointer-down; `hit` is the name of the nearest intersected mesh's parent, None when the ray hits nothing */
  function OnPointerDown(s: Interaction, hit: Option<string>): (r: Reaction)
    ensures !r.render
    ensures r.showPicker <==> hit == Some(ControlPanel)
    ensures hit == Some(LampCase) ==> r.next == s.(pressed := true, orbitEnabled := false)
    ensures hit != Some(LampCase) ==> r.next == s
  {
    match hit
    case None => Reaction(s, false, false)
    case Some(name) =>
      if name == LampCase then Reaction(s.(pressed := true, orbitEnabled := false), false, false)
      else if name == ControlPanel then Reaction(s, false, true)
      else Reaction(s, false, false)
  }

  /** One axis of a drag step: the angle moved by the pointer travel since the stored position, then clamped */
  function DragAxis(angle: real, previous: real, current: real): (a: real)
    ensures InRange(a)
    ensures InRange(angle + (previous - current) * Sensitivity) ==> a == angle + (previous - current) * Sensitivity
    ensures angle + (previous - current) * Sensitivity > Pi ==> a == Pi
    ensures angle + (previous - current) * Sensitivity < -Pi ==> a == -Pi
  {
    Clamp(angle + (previous - current) * Sensitivity)
  }

  /** Pointer-move at client position `at` in window `win` */
  function OnPointerMove(s: Interaction, at: ClientPoint, win: Window): (r: Reaction)
    ensures !s.pressed ==> r == Reaction(s, false, false)
    ensures s.pressed ==> r.render && !r.showPicker
    ensures s.pressed ==>
              && r.next.pressed == s.pressed && r.next.orbitEnabled == s.orbitEnabled
              && r.next.fullScreen == s.fullScreen
              && r.next.deltaX == Normalize(at, win).x && r.next.deltaY == Normalize(at, win).y
              && InRange(r.next.lamp.x) && InRange(r.next.lamp.z)
    ensures s.pressed ==>
              r.next.lamp.z == Clamp(s.lamp.z + (s.deltaY - Normalize(at, win).y) * Sensitivity)
              && r.next.lamp.x == Clamp(s.lamp.x + (s.deltaX - Normalize(at, win).x) * Sensitivity)
  {
    if !s.pressed then Reaction(s, false, false)
    else
      var n := Normalize(at, win);
      var z := DragAxis(s.lamp.z, s.deltaY, n.y);
      var x := DragAxis(s.lamp.x, s.deltaX, n.x);
      Reaction(s.(deltaX := n.x, deltaY := n.y, lamp := Rotation(x, z)), true, false)
  }

  /** Pointer-up: leaves full-screen mode set, ends a drag in progress, and always asks for a frame */
  function OnPointerUp(s: Interaction): (r: Reaction)
    ensures r.render && !r.showPicker && r.next.fullScreen
    ensures r.next.lamp == s.lamp
    ensures s.pressed ==> !r.next.pressed && r.next.orbitEnabled && r.next.deltaX == 0.0 && r.next.deltaY == 0.0
    ensures !s.pressed ==> r.next == s.(fullScreen := true)
  {
    var t := if !s.fullScreen then s.(fullScreen := true) else s;
    var t' := if t.pressed then t.(pressed := false, orbitEnabled := true, deltaX := 0.0, deltaY := 0.0) else t;
    Reaction(t', true, false)
  }

  /** Each handler keeps the invariant. */
  lemma HandlersKeepValid(s: Interaction, hit: Option<string>, at: ClientPoint, win: Window)
    requires Valid(s)
    ensures Valid(OnPointerDown(s, hit).next)
    ensures Valid(OnPointerMove(s, at, win).next)
    ensures Valid(OnPointerUp(s).next)
  {
  }

  /** The first move of a drag that started from a valid idle state measures the pointer
      travel from the origin of normalised coordinates, because pointer-down does not
      record where the pointer was pressed. */
  lemma FirstMoveMeasuresFromOrigin(s: Interaction, at: ClientPoint, win: Window)
    requires Valid(s) && !s.pressed
    ensures var r := OnPointerMove(OnPointerDown(s, Some(LampCase)).next, at, win);
            var n := Normalize(at, win);
            r.next.lamp == Rotation(Clamp(s.lamp.x - n.x * Sensitivity), Clamp(s.lamp.z - n.y * Sensitivity))
  {
  }

  /** A drag from the page centre: press the lamp, move to the centre, move right by 0.1 in
      normalised units, release.  The lamp turns by -0.5 rad about x, each move and the release
      ask for a frame, and afterwards orbiting is back on and the stored pointer is the origin. */
  lemma DragScenario()
    ensures var win := Window(1000.0, 1000.0);
            var s1 := OnPointerDown(Initial(Rotation(0.0, 0.0)), Some(LampCase)).next;
            var r2 := OnPointerMove(s1, ClientPoint(500.0, 500.0), win);
            var r3 := OnPointerMove(r2.next, ClientPoint(550.0, 500.0), win);
            var r4 := OnPointerUp(r3.next);
            && s1.pressed && !s1.orbitEnabled
            && r2.render && r2.next.lamp == Rotation(0.0, 0.0)
            && r3.render && r3.next.lamp == Rotation(-0.5, 0.0)
            && r4.render && r4.next.lamp == Rotation(-0.5, 0.0)
            && !r4.next.pressed && r4.next.orbitEnabled && r4.next.deltaX == 0.0 && r4.next.deltaY == 0.0
  {
    var win := Window(1000.0, 1000.0);
    assert Normalize(ClientPoint(500.0, 500.0), win) == Ndc(0.0, 0.0);
    assert Normalize(ClientPoint(550.0, 500.0), win) == Ndc(0.1, 0.0);
  }
}

=== FILE: dump.dfy ===
/** dumpObject: the console pretty-printer of a loaded scene subtree.  It emits
    one line per object in preorder; every line but the root's carries a
    connector that marks whether the object is its parent's last child, after
    an indent that grows by two characters per level. */
module Dump {
  import opened Wrappers

  /** A scene object as the printer sees it: its name, its type, the name of its
      material if it has one, and its children in order */
  datatype Node = Node(name: string, kind: string, material: Option<string>, children: seq<Node>)

  /** One printed line, kept in its three parts: indent, connector, object caption */
  datatype Line = Line(indent: string, connector: string, caption: string)

  const Elbow: string := "\U{2514}\U{2500}"   // connector of a last child
  const Tee: string := "\U{251C}\U{2500}"     // connector of any other child
  const Blank: string := "  "                 // indent step below a last child
  const Rule: string := "\U{2502} "           // indent step below any other child

  function Connector(isLast: bool): string { if isLast then Elbow else Tee }
  function Pad(isLast: bool): string { if isLast then Blank else Rule }

  /** The label of an object: name (or *no-name* for an empty one), type, material name */
  function Label(n: Node): (s: string)
    ensures n.name == [] ==> "*no-name*" <= s
    ensures n.name != [] ==> n.name <= s
    ensures var tail := " [" + n.kind + "][" + MaterialName(n.material) + "]";
            |tail| <= |s| && s[|s| - |tail|..] == tail
  {
    var head := if n.name == "" then "*no-name*" else n.name;
    var tail := " [" + n.kind + "][" + MaterialName(n.material) + "]";
    assert (head + tail)[|head + tail| - |tail|..] == tail;
    head + tail
  }

  /** The material part of a caption: the material's name, or *no-material* when there is none */
  function MaterialName(m: Option<string>): (s: string)
    ensures m.Some? ==> s == m.value
    ensures m.None? ==> s == "*no-material*"
  {
    match m
    case Some(name) => name
    case None => "*no-material*"
  }

  /** The text of a line as pushed onto the output */
  function Text(l: Line): string {
    l.indent + l.connector + l.caption
  }

  /** Number of objects in a subtree and in a forest */
  function Size(n: Node): nat
    decreases n
  {
    1 + SizeAll(n.children)
  }

  function SizeAll(cs: seq<Node>): nat
    decreases cs
  {
    if |cs| == 0 then 0 else Size(cs[0]) + SizeAll(cs[1..])
  }

  /** The objects of a subtree in preorder: the independent reference the printer follows */
  function Preorder(n: Node): seq<Node>
    decreases n
  {
    [n] + PreorderAll(n.children)
  }

  function PreorderAll(cs: seq<Node>): seq<Node>
    decreases cs
  {
    if |cs| == 0 then [] else Preorder(cs[0]) + PreorderAll(cs[1..])
  }

  /** dumpObject(obj, lines, isLast, prefix), returning the lines it pushes */
  function DumpLines(n: Node, isLast: bool, prefix: string): (ls: seq<Line>)
    ensures |ls| == Size(n)
    ensures ls[0] == Line(prefix, if prefix == "" then "" else Connector(isLast), Label(n))
    decreases n
  {
    [Line(prefix, if prefix == "" then "" else Connector(isLast), Label(n))]
      + DumpChildren(n.children, prefix + Pad(isLast))
  }

  /** The children's lines, each child told whether it is the last one */
  function DumpChildren(cs: seq<Node>, prefix: string): (ls: seq<Line>)
    ensures |ls| == SizeAll(cs)
    decreases cs
  {
    if |cs| == 0 then []
    else DumpLines(cs[0], |cs| == 1, prefix) + DumpChildren(cs[1..], prefix)
  }

  /** dumpObject(root) with its default arguments, joined into text lines */
  function DumpObject(root: Node): (out: seq<string>)
    ensures |out| == Size(root)
    ensures out[0] == Label(root)
  {
    var ls := DumpLines(root, true, "");
    seq(|ls|, i requires 0 <= i < |ls| => Text(ls[i]))
  }

  /** The printer emits exactly one line per object, and the captions come in preorder. */
  lemma {:induction false} DumpFollowsPreorder(n: Node, isLast: bool, prefix: string)
    ensures var ls, pre := DumpLines(n, isLast, prefix), Preorder(n);
            |ls| == |pre| && forall i :: 0 <= i < |ls| ==> ls[i].caption == Label(pre[i])
    decreases n
  {
    DumpChildrenFollowPreorder(n.children, prefix + Pad(isLast));
  }

  lemma {:induction false} DumpChildrenFollowPreorder(cs: seq<Node>, prefix: string)
    ensures var ls, pre := DumpChildren(cs, prefix), PreorderAll(cs);
            |ls| == |pre| && forall i :: 0 <= i < |ls| ==> ls[i].caption == Label(pre[i])
    decreases cs
  {
    if |cs| > 0 {
      DumpFollowsPreorder(cs[0], |cs| == 1, prefix);
      DumpChildrenFollowPreorder(cs[1..], prefix);
    }
  }

  /** Every line of a subtree is indented by at least the subtree's prefix, and every line below
      its first is indented two characters further and carries a connector. */
  lemma {:induction false} IndentsExtendPrefix(n: Node, isLast: bool, prefix: string)
    ensures forall i :: 0 <= i < Size(n) ==> prefix <= DumpLines(n, isLast, prefix)[i].indent
    ensures forall i :: 1 <= i < Size(n) ==>
              && prefix + Pad(isLast) <= DumpLines(n, isLast, prefix)[i].indent
              && DumpLines(n, isLast, prefix)[i].connector in {Elbow, Tee}
    decreases n
  {
    var inner := prefix + Pad(isLast);
    ChildIndentsExtendPrefix(n.children, inner);
    var ls, rest := DumpLines(n, isLast, prefix), DumpChildren(n.children, inner);
    assert prefix <= inner;
    forall i | 1 <= i < |ls|
      ensures prefix <= ls[i].indent && inner <= ls[i].indent && ls[i].connector in {Elbow, Tee}
    {
      assert ls[i] == rest[i - 1];
      assert inner <= rest[i - 1].indent && rest[i - 1].connector in {Elbow, Tee};
      PrefixTransitive(prefix, inner, ls[i].indent);
    }
  }

  lemma {:induction false} ChildIndentsExtendPrefix(cs: seq<Node>, prefix: string)
    requires prefix != ""
    ensures forall i :: 0 <= i < SizeAll(cs) ==>
              prefix <= DumpChildren(cs, prefix)[i].indent && DumpChildren(cs, prefix)[i].connector in {Elbow, Tee}
    decreases cs
  {
    if |cs| > 0 {
      IndentsExtendPrefix(cs[0], |cs| == 1, prefix);
      ChildIndentsExtendPrefix(cs[1..], prefix);
      var ls, head, rest := DumpChildren(cs, prefix), DumpLines(cs[0], |cs| == 1, prefix), DumpChildren(cs[1..], prefix);
      forall i | 0 <= i < |ls|
        ensures prefix <= ls[i].indent && ls[i].connector in {Elbow, Tee}
      {
        if i == 0 {
          assert ls[0] == head[0];
        } else if i < |head| {
          assert ls[i] == head[i];
          assert prefix + Pad(|cs| == 1) <= head[i].indent;
          PrefixTransitive(prefix, prefix + Pad(|cs| == 1), head[i].indent);
        } else {
          assert ls[i] == rest[i - |head|];
          assert prefix <= rest[i - |head|].indent && rest[i - |head|].connector in {Elbow, Tee};
        }
      }
    }
  }

  lemma PrefixTransitive(a: string, b: string, c: string)
    requires a <= b && b <= c
    ensures a <= c
  {
    assert a == b[..|a|] == c[..|a|];
  }

  /** Within a parent's children, the line of child k comes after the lines of the children before it;
      its connector is the elbow exactly when it is the last child. */
  lemma {:induction false} ChildLineAt(cs: seq<Node>, prefix: string, k: nat)
    requires k < |cs|
    ensures SizeAll(cs[..k]) < |DumpChildren(cs, prefix)|
    ensures DumpChildren(cs, prefix)[SizeAll(cs[..k])]
            == Line(prefix, if prefix == "" then "" else Connector(k == |cs| - 1), Label(cs[k]))
    ensures prefix != "" ==> (DumpChildren(cs, prefix)[SizeAll(cs[..k])].connector == Elbow <==> k == |cs| - 1)
    decreases k
  {
    if k == 0 {
      FirstChildLine(cs, prefix);
    } else {
      ChildLineAt(cs[1..], prefix, k - 1);
      LaterChildLine(cs, prefix, k);
    }
    ConnectorIsElbowExactly(k == |cs| - 1);
  }

  /** The first child's line opens the children's lines */
  lemma FirstChildLine(cs: seq<Node>, prefix: string)
    requires |cs| > 0
    ensures 0 < |DumpChildren(cs, prefix)|
    ensures DumpChildren(cs, prefix)[0] == Line(prefix, if prefix == "" then "" else Connector(|cs| == 1), Label(cs[0]))
  {
    DumpChildrenUnfold(cs, prefix);
  }

  /** Child k's line among all children is its line among the children after the first, shifted by
      the first child's lines */
  lemma LaterChildLine(cs: seq<Node>, prefix: string, k: nat)
    requires 0 < k < |cs|
    requires SizeAll(cs[1..][..k - 1]) < |DumpChildren(cs[1..], prefix)|
    requires DumpChildren(cs[1..], prefix)[SizeAll(cs[1..][..k - 1])]
             == Line(prefix, if prefix == "" then "" else Connector(k == |cs| - 1), Label(cs[k]))
    ensures SizeAll(cs[..k]) < |DumpChildren(cs, prefix)|
    ensures DumpChildren(cs, prefix)[SizeAll(cs[..k])]
            == Line(prefix, if prefix == "" then "" else Connector(k == |cs| - 1), Label(cs[k]))
  {
    var head, rest := DumpLines(cs[0], |cs| == 1, prefix), DumpChildren(cs[1..], prefix);
    DumpChildrenUnfold(cs, prefix);
    SizeAllOfPrefix(cs, k);
    IndexPastPrefix(head, rest, SizeAll(cs[1..][..k - 1]));
  }

  lemma DumpChildrenUnfold(cs: seq<Node>, prefix: string)
    requires |cs| > 0
    ensures DumpChildren(cs, prefix) == DumpLines(cs[0], |cs| == 1, prefix) + DumpChildren(cs[1..], prefix)
  {
  }

  lemma IndexPastPrefix(a: seq<Line>, b: seq<Line>, j: nat)
    requires j < |b|
    ensures (a + b)[|a| + j] == b[j]
  {
  }

  lemma ConnectorIsElbowExactly(isLast: bool)
    ensures Connector(isLast) == Elbow <==> isLast
  {
    assert Elbow[0] != Tee[0];
  }

  /** The objects of the first k trees of a forest: the first tree's, then those of the next k - 1 */
  lemma SizeAllOfPrefix(cs: seq<Node>, k: nat)
    requires 0 < k <= |cs|
    ensures SizeAll(cs[..k]) == Size(cs[0]) + SizeAll(cs[1..][..k - 1])
  {
    assert cs[..k][0] == cs[0];
    assert cs[..k][1..] == cs[1..][..k - 1];
  }

  /** The line of a node's child k sits right after the node's line and the lines of the earlier
      children's subtrees.  Its indent is the node's prefix extended by two blanks if the node is a last
      child and by a vertical rule otherwise, and its connector is the elbow exactly when k is the last child. */
  lemma ChildHeader(n: Node, isLast: bool, prefix: string, k: nat)
    requires k < |n.children|
    ensures var ls, at := DumpLines(n, isLast, prefix), 1 + SizeAll(n.children[..k]);
            at < |ls|
            && ls[at] == Line(prefix + Pad(isLast), Connector(k == |n.children| - 1), Label(n.children[k]))
            && (ls[at].connector == Elbow <==> k == |n.children| - 1)
            && ls[at].connector in {Elbow, Tee}
            && ls[at].indent == prefix + (if isLast then Blank else Rule)
  {
    ChildLineAt(n.children, prefix + Pad(isLast), k);
    assert |prefix + Pad(isLast)| == |prefix| + 2;
  }

  /** The printed text of a whole tree: one line per object in preorder, the root's caption bare, every
      other line an indent of at least two characters, a connector and the object's caption. */
  lemma DumpObjectShape(root: Node)
    ensures var out, ls, pre := DumpObject(root), DumpLines(root, true, ""), Preorder(root);
            && |out| == |pre| == |ls|
            && out[0] == Label(root)
            && forall i :: 1 <= i < |out| ==>
                 && out[i] == ls[i].indent + ls[i].connector + Label(pre[i])
                 && |ls[i].indent| >= 2
                 && ls[i].connector in {Elbow, Tee}
  {
    DumpFollowsPreorder(root, true, "");
    IndentsExtendPrefix(root, true, "");
    var ls := DumpLines(root, true, "");
    forall i | 1 <= i < |ls|
      ensures |ls[i].indent| >= 2
    {
      assert Pad(true) <= ls[i].indent;
    }
  }
}

=== FILE: pointer.dfy ===
/** Pointer normalisation (client pixels to normalised device coordinates)
    and the overlay mapping back from normalised device coordinates to canvas
    pixels, with the fixed bias the colour-picker overlay is shifted by. */
module Pointer {

  /** A window or viewport extent: strictly positive, since it is divided by */
  type Extent = r: real | r > 0.0 witness 1.0

  /** window.innerWidth and window.innerHeight */
  datatype Window = Window(innerWidth: Extent, innerHeight: Extent)

  /** A pointer event's clientX and clientY */
  datatype ClientPoint = ClientPoint(x: real, y: real)

  /** Normalised device coordinates: [-1, 1] on both axes over the viewport, y pointing up */
  datatype Ndc = Ndc(x: real, y: real)

  /** Canvas pixel coordinates, y pointing down */
  datatype Pixel = Pixel(x: real, y: real)

  /** The offset written to the overlay element's `translate` style */
  datatype Offset = Offset(dx: real, dy: real)

  /** Horizontal and vertical bias that centres the overlay on its anchor */
  const BiasX: real := 30.0
  const BiasY: real := 40.0

  predicate Inside(p: ClientPoint, w: Window) {
    0.0 <= p.x <= w.innerWidth && 0.0 <= p.y <= w.innerHeight
  }

  predicate InUnitSquare(n: Ndc) {
    -1.0 <= n.x <= 1.0 && -1.0 <= n.y <= 1.0
  }

  /** The pointer normalisation shared by the pointer-down and pointer-move handlers */
  function Normalize(p: ClientPoint, w: Window): (n: Ndc)
    ensures Inside(p, w) ==> InUnitSquare(n)
    ensures p.x == 0.0 ==> n.x == -1.0
    ensures p.x == w.innerWidth ==> n.x == 1.0
    ensures p.y == 0.0 ==> n.y == 1.0
    ensures p.y == w.innerHeight ==> n.y == -1.0
  {
    var fx, fy := p.x / w.innerWidth, p.y / w.innerHeight;
    DivideFacts(p.x, w.innerWidth);
    DivideFacts(p.y, w.innerHeight);
    Ndc(fx * 2.0 - 1.0, -fy * 2.0 + 1.0)
  }

  /** The fraction of the viewport a coordinate covers */
  lemma DivideFacts(a: real, d: Extent)
    ensures 0.0 <= a <= d ==> 0.0 <= a / d <= 1.0
    ensures a == 0.0 ==> a / d == 0.0
    ensures a == d ==> a / d == 1.0
  {
    if 0.0 <= a <= d {
      DivideWithin(a, d);
    }
  }

  lemma DivideWithin(a: real, d: Extent)
    requires 0.0 <= a <= d
    ensures 0.0 <= a / d <= 1.0
  {
  }

  /** Normalised x grows with clientX; normalised y falls as clientY grows (screen y points down). */
  lemma NormalizeMonotone(p: ClientPoint, q: ClientPoint, w: Window)
    ensures p.x <= q.x ==> Normalize(p, w).x <= Normalize(q, w).x
    ensures p.y <= q.y ==> Normalize(p, w).y >= Normalize(q, w).y
  {
    if p.x <= q.x {
      DivideMonotone(p.x, q.x, w.innerWidth);
    }
    if p.y <= q.y {
      DivideMonotone(p.y, q.y, w.innerHeight);
    }
  }

  lemma ScaleThenDivide(t: real, d: Extent)
    ensures (t * d) / d == t
  {
  }

  lemma DivideMonotone(a: real, b: real, d: Extent)
    requires a <= b
    ensures a / d <= b / d
  {
    assert b / d - a / d == (b - a) / d;
  }

  /** The overlay mapping in the render pass: x = (ndc.x * .5 + .5) * width, y = (ndc.y * -.5 + .5) * height */
  function ToPixel(n: Ndc, width: real, height: real): (px: Pixel)
    ensures InUnitSquare(n) && 0.0 <= width && 0.0 <= height ==>
              0.0 <= px.x <= width && 0.0 <= px.y <= height
    ensures n.x == -1.0 ==> px.x == 0.0
    ensures n.y == 1.0 ==> px.y == 0.0
  {
    var tx, ty := n.x * 0.5 + 0.5, n.y * -0.5 + 0.5;
    assert InUnitSquare(n) && 0.0 <= width && 0.0 <= height ==>
             0.0 <= tx * width <= width && 0.0 <= ty * height <= height by {
      if InUnitSquare(n) && 0.0 <= width && 0.0 <= height {
        ScaleWithin(tx, width);
        ScaleWithin(ty, height);
      }
    }
    Pixel(tx * width, ty * height)
  }

  lemma ProductNonNegative(a: real, b: real)
    requires 0.0 <= a && 0.0 <= b
    ensures 0.0 <= a * b
  {
  }

  lemma ScaleWithin(t: real, s: real)
    requires 0.0 <= t <= 1.0 && 0.0 <= s
    ensures 0.0 <= t * s <= s
  {
    assert s - t * s == (1.0 - t) * s;
  }

  /** Overlay x is non-decreasing in ndc.x and overlay y is non-increasing in ndc.y. */
  lemma ToPixelMonotone(m: Ndc, n: Ndc, width: real, height: real)
    requires 0.0 <= width && 0.0 <= height
    ensures m.x <= n.x ==> ToPixel(m, width, height).x <= ToPixel(n, width, height).x
    ensures m.y <= n.y ==> ToPixel(m, width, height).y >= ToPixel(n, width, height).y
  {
    var pm, pn := ToPixel(m, width, height), ToPixel(n, width, height);
    assert pn.x - pm.x == ((n.x - m.x) * 0.5) * width;
    assert pm.y - pn.y == ((n.y - m.y) * 0.5) * height;
    if m.x <= n.x {
      ProductNonNegative((n.x - m.x) * 0.5, width);
    }
    if m.y <= n.y {
      ProductNonNegative((n.y - m.y) * 0.5, height);
    }
  }

  /** Mapping a normalised pointer back to pixels over the same viewport recovers the client point. */
  lemma ToPixelUndoesNormalize(p: ClientPoint, w: Window)
    ensures ToPixel(Normalize(p, w), w.innerWidth, w.innerHeight) == Pixel(p.x, p.y)
  {
    var n := Normalize(p, w);
    assert (n.x * 0.5 + 0.5) * w.innerWidth == (p.x / w.innerWidth) * w.innerWidth == p.x;
    assert (n.y * -0.5 + 0.5) * w.innerHeight == (p.y / w.innerHeight) * w.innerHeight == p.y;
  }

  /** Normalising the pixel an NDC point maps to over the same viewport recovers the NDC point. */
  lemma NormalizeUndoesToPixel(n: Ndc, w: Window)
    ensures var px := ToPixel(n, w.innerWidth, w.innerHeight);
            Normalize(ClientPoint(px.x, px.y), w) == n
  {
    var px := ToPixel(n, w.innerWidth, w.innerHeight);
    ScaleThenDivide(n.x * 0.5 + 0.5, w.innerWidth);
    ScaleThenDivide(n.y * -0.5 + 0.5, w.innerHeight);
  }

  /** The overlay element's translate: the mapped pixel shifted left by BiasX and up by BiasY */
  function OverlayOffset(n: Ndc, width: real, height: real): (o: Offset)
    ensures InUnitSquare(n) && 0.0 <= width && 0.0 <= height ==>
              -BiasX <= o.dx <= width - BiasX && -BiasY <= o.dy <= height - BiasY
    ensures Pixel(o.dx + BiasX, o.dy + BiasY) == ToPixel(n, width, height)
  {
    var px := ToPixel(n, width, height);
    Offset(px.x - BiasX, px.y - BiasY)
  }
}

=== FILE: render.dfy ===
/** One render-on-demand frame: the drawing-buffer resize check, the camera
    aspect that follows it, and the overlay that tracks the projected colour
    panel.  The draw itself is the engine's and is not modelled. */
module Render {
  import opened Wrappers
  import opened Pointer

  /** The canvas: `width`/`height` are its drawing-buffer size, `clientWidth`/`clientHeight` its displayed size */
  datatype Canvas = Canvas(width: nat, height: nat, clientWidth: nat, clientHeight: nat)

  /** The drawing buffer matches the displayed size */
  predicate Synced(c: Canvas) {
    c.width == c.clientWidth && c.height == c.clientHeight
  }

  /** The answer of resizeRendererToDisplaySize and the canvas it leaves */
  datatype Resized = Resized(needResize: bool, canvas: Canvas)

  /** resizeRendererToDisplaySize: reports whether the drawing buffer differs from the
      displayed size and, if so, sets it to the displayed size (the renderer's pixel ratio is 1) */
  function ResizeToDisplaySize(c: Canvas): (r: Resized)
    ensures r.needResize <==> !Synced(c)
    ensures Synced(r.canvas)
    ensures r.canvas.clientWidth == c.clientWidth && r.canvas.clientHeight == c.clientHeight
    ensures !r.needResize ==> r.canvas == c
  {
    var needResize := c.width != c.clientWidth || c.height != c.clientHeight;
    if needResize then Resized(true, c.(width := c.clientWidth, height := c.clientHeight))
    else Resized(false, c)
  }

  /** Checking twice in a row finds nothing to do the second time. */
  lemma ResizeIsIdempotent(c: Canvas)
    ensures var r := ResizeToDisplaySize(c);
            ResizeToDisplaySize(r.canvas) == Resized(false, r.canvas)
  {
  }

  /** camera.aspect, kept as the displayed width and height it is the quotient of */
  datatype Aspect = Aspect(width: nat, height: nat)

  /** What a frame leaves behind: the canvas, the camera aspect, the overlay's translate
      (None until it is first placed) and the number of frames drawn */
  datatype View = View(canvas: Canvas, aspect: Aspect, overlay: Option<Offset>, frames: nat)

  /** render(): resize check, camera aspect update on a resize, overlay placement when the
      colour panel is loaded (`anchor` is its projected position), then one draw */
  function RenderFrame(v: View, anchor: Option<Ndc>): (v': View)
    ensures Synced(v'.canvas)
    ensures v'.canvas.clientWidth == v.canvas.clientWidth && v'.canvas.clientHeight == v.canvas.clientHeight
    ensures v'.frames == v.frames + 1
    ensures !Synced(v.canvas) ==> v'.aspect == Aspect(v.canvas.clientWidth, v.canvas.clientHeight)
    ensures Synced(v.canvas) ==> v'.aspect == v.aspect && v'.canvas == v.canvas
    ensures anchor.None? ==> v'.overlay == v.overlay
    ensures anchor.Some? ==>
              && v'.overlay.Some?
              && Pixel(v'.overlay.value.dx + BiasX, v'.overlay.value.dy + BiasY)
                 == ToPixel(anchor.value, v.canvas.clientWidth as real, v.canvas.clientHeight as real)
  {
    var r := ResizeToDisplaySize(v.canvas);
    var aspect := if r.needResize then Aspect(r.canvas.clientWidth, r.canvas.clientHeight) else v.aspect;
    var overlay :=
      match anchor
      case Some(n) => Some(OverlayOffset(n, r.canvas.clientWidth as real, r.canvas.clientHeight as real))
      case None => v.overlay;
    View(r.canvas, aspect, overlay, v.frames + 1)
  }

  /** A loaded anchor whose projection is on screen puts the overlay's reference point on the canvas. */
  lemma OverlayStaysOnCanvas(v: View, n: Ndc)
    requires InUnitSquare(n)
    ensures var o := RenderFrame(v, Some(n)).overlay.value;
            0.0 <= o.dx + BiasX <= v.canvas.clientWidth as real
            && 0.0 <= o.dy + BiasY <= v.canvas.clientHeight as real
  {
  }

  /** The overlay is recomputed every frame: two frames with anchors p1 then p2 leave the overlay of p2,
      and p1's frame left the overlay of p1. */
  lemma OverlayTracksAnchor(v: View, p1: Ndc, p2: Ndc)
    ensures var v1 := RenderFrame(v, Some(p1));
            var v2 := RenderFrame(v1, Some(p2));
            v1.overlay == Some(OverlayOffset(p1, v.canvas.clientWidth as real, v.canvas.clientHeight as real))
            && v2.overlay == Some(OverlayOffset(p2, v.canvas.clientWidth as real, v.canvas.clientHeight as real))
  {
  }
}

=== FILE: wrappers.dfy ===
/** A value that may be absent: the raycast may hit nothing, the colour panel may
    not be loaded yet, a scene object may have no material. */
module Wrappers {

  datatype Option<+T> = None | Some(value: T)
}
